=== FILE: README.md ===
# MySQL backup manager — a Dafny model of backup naming and restore selection

The system is two scripts. `backup.py` makes sure the backup directory exists,
names a dump file after the database and the current second
(`<DB_NAME>_backup_<YYYY-MM-DD_HH-MM-SS>.sql`), runs the dump tool into it and
reports success or failure. `restore.py` lists the backup directory in reverse
string order, numbers the entries, reads the operator's choice, falls back to the
first (newest) entry for any unusable answer, and restores the selected file
unless it no longer exists.

The design rests on one property: for a fixed database name, sorting file names
as strings sorts backups by the time they were taken, so the first entry of the
reverse-sorted listing is the latest backup. The model proves it and connects it
to the selection logic.

Modules (one file each):

- `Options` (options.dfy): the `Option` wrapper.
- `LexOrder` (lex.dfy): Python's code-point lexicographic order on strings, proved
  to be a strict total order and equal to the textbook "first difference"
  definition. Dafny's own `<` on sequences means "proper prefix", so it is not used.
- `Digits` (digits.dfy): zero-padded fields, `str(n)` and `int(s)` on ASCII digits.
- `Stamp` (stamp.dfy): the clock reading and its `%Y-%m-%d_%H-%M-%S` rendering.
- `Paths` (paths.dfy): `os.path.join` and `os.path.basename` for POSIX paths.
- `Backup` (backup.dfy): file name, path and the whole backup run.
- `Sorting` (sorting.dfy): `sorted(..., reverse=True)` on strings.
- `Choice` (choice.dfy): `strip`, `isdigit`, `int` and the index the answer selects.
- `Restore` (restore.dfy): `restore_backup` and the whole restore run.

External effects are inputs or outputs: the clock reading is a `Time`, the
directory creation answer, the directory listing, the `os.path.exists` answer and
the exit statuses of the dump and restore tools are parameters, and what a run
does to the outside world is returned as a sequence of actions (`MakeDirs`,
`RunDump`, `ListDir`, `ReadChoice`, `CheckExists`, `RunRestoreTool`), so "the
tool is never invoked" is a statement about that sequence.

What the scripts do, where one might expect otherwise:

- An unusable choice (empty, not a number, `0`, larger than the listing) does not
  produce an `InvalidSelection` error; it selects the first entry of the sorted
  listing (restore.py lines 41-44).
- Neither script checks that the database server is reachable before dumping or
  restoring, uploads to or downloads from remote storage, or verifies the
  database after a restore; none of that is modelled.
- restore.py does not create the backup directory; listing a missing directory
  raises, which the model reports as `ListingError`.
- Reading the answer can raise (end of input, an interrupt); nothing catches it,
  so the run stops after the menu with no restore, which the model reports as
  `InputAborted`.

## Model

| member | source | states |
|---|---|---|
| Stamp.Format | backup.py:15 | the stamp is always 19 characters: four year digits, `-`, month, `-`, day, `_`, hour, `-`, minute, `-`, second, each field zero-padded digits |
| Stamp.ParseFormat | backup.py:15 | reading a stamp back gives `t` exactly when the string is the stamp of the valid time `t` (format and parse are inverse both ways) |
| Stamp.FormatInjective | backup.py:15 | two valid times have the same stamp if and only if they are the same second |
| Stamp.FormatOrder | backup.py:15 | one stamp sorts before another as a string if and only if its time is chronologically earlier |
| Digits.Pad2Order | backup.py:15 | two-digit zero-padded fields compare as strings exactly as the numbers compare, and are equal exactly when the numbers are |
| Digits.Pad4Order | backup.py:15 | the same for the four-digit year field |
| Digits.Pad4RoundTrip | backup.py:15 | reading the four-digit year field back gives the year |
| Backup.ParseBackupNameIff | backup.py:16 | a file name parses to time `t` for database `db` exactly when it is `db ++ "_backup_" ++ stamp(t) ++ ".sql"` for a valid `t` |
| Backup.NameOrder | backup.py:15-16 | for one database name, backup name `a` sorts before backup name `b` if and only if time `a` is earlier than time `b` |
| Backup.NameInjective | backup.py:15-16 | for one database, names are equal exactly when the times are: distinct seconds never collide, two backups in the same second always do |
| Backup.BackupPath | backup.py:16 | the dump path ends with the backup file name |
| Backup.PathInsideDir | backup.py:13-16 | for a database name without `/`, the path's last component is the backup name and everything before it is the backup directory with a separator |
| Backup.AbsoluteNameLeavesDir | backup.py:16 | a database name starting with `/` makes `os.path.join` drop the backup directory, so the path is the bare name |
| Backup.RunBackup | backup.py:13-23 | the actions are exactly: create the directory, then, only if that succeeded, one dump run on the computed path, each once and in that order; success is reported exactly when the dump exits with 0, failure carries the non-zero status, and a failed directory creation ends the run |
| Paths.Join | backup.py:16 | the joined path ends with the file name; an absolute name replaces the directory; otherwise the path starts with the directory |
| Paths.JoinSplit | restore.py:42-44 | a relative name without separators joined under a directory is the last component of the result and its parent is that directory |
| LexOrder.LessIsFirstDifference | restore.py:29 | the string comparison holds exactly when, at the first position where the strings differ, the first is smaller or has ended |
| LexOrder.Transitive | restore.py:29 | the string order is transitive |
| LexOrder.Total | restore.py:29 | any two distinct strings are ordered one way or the other |
| LexOrder.FixedWidth | backup.py:15-16 | for equally wide first parts, concatenations compare on the first parts and fall back to the second parts on a tie |
| Sorting.SortDesc | restore.py:29 | the sorted listing has the same entries with the same multiplicities and no entry is followed by a greater one |
| Sorting.SortedUnique | restore.py:29 | any two descending arrangements of the same entries are equal, so the model's sort gives exactly Python's result |
| Sorting.FirstIsGreatest | restore.py:44 | the first entry of a descending listing is not below any entry |
| Choice.Strip | restore.py:39 | the stripped answer neither starts nor ends with whitespace |
| Choice.StripPadded | restore.py:39 | surrounding any text that has no whitespace at its ends with whitespace, then stripping, gives that text back |
| Choice.StripIdempotent | restore.py:39 | stripping twice is stripping once |
| Backup.BackupName | backup.py:16 | the backup name is `|db| + 31` characters long (8 for `_backup_`, 19 for the stamp, 4 for `.sql`); its contents are pinned by `Backup.ParseBackupNameIff` |
| Digits.Show | restore.py:36 | `str(n)` is a non-empty string of digits with no leading zero except for `0` itself; `Digits.ValueOfShow` reads it back |
| Digits.Value | restore.py:41 | `int(s)` on a digit string of length `k` is below `10^k`; its exact value on every digit string is pinned by `Digits.ValueAppend` (with `Digits.ValueOfShow`) |
| Digits.ValueAppend | restore.py:41 | reading a concatenation of digit strings gives the left part's value shifted by the width of the right part plus the right part's value, which fixes `int()` on every digit string |
| Digits.LeadingZero | restore.py:41 | a leading zero does not change the number read, so `07` and `007` read as 7 |
| Choice.ValidChoice | restore.py:41 | an answer counts as a menu number only when the menu is non-empty and the stripped answer is a non-empty all-digit string |
| Choice.ShownNumberValid | restore.py:36-41 | a number written as `str` writes it, with any surrounding whitespace, is accepted exactly when it lies in `1..count` |
| Choice.ChoiceIndex | restore.py:41-44 | the selected index is in range; a stripped all-digit answer `n` with `1 <= n <= count` selects `n - 1`; anything else selects 0 |
| Choice.ShownNumberSelects | restore.py:36-42 | typing the number printed for line `k` (with any surrounding whitespace) selects index `k` |
| Choice.BlankSelectsFirst | restore.py:39-44 | pressing Enter or typing only whitespace selects index 0 |
| Choice.OutOfRangeSelectsFirst | restore.py:41-44 | typing 0 or a number above the listing size selects index 0 instead of being rejected |
| Digits.ValueOfShow | restore.py:36-41 | `int(str(n)) == n` on the menu numbers |
| Restore.RestoreBackup | restore.py:16-26 | the actions are exactly one existence check of the path, followed, only when the file exists, by one run of the restore tool on that path; a missing file reports an error; success is reported exactly when the file exists and the tool exits with 0, failure carries the non-zero status |
| Restore.Chosen | restore.py:29-44 | no entry for an empty listing; otherwise a member of the listing: entry `n - 1` of the sorted listing for a valid answer `n`, entry 0 otherwise |
| Restore.Select | restore.py:41-44 | the selected path is the backup directory joined with some entry of the listing, and there is one exactly when the listing is non-empty |
| Restore.DefaultSelectsGreatest | restore.py:43-44 | without a valid number the selection is the first sorted entry, which is in the listing and not below any entry |
| Restore.ShownNumberSelectsLine | restore.py:35-42 | typing the number printed next to a menu line restores that line's entry |
| Restore.DefaultIsNewestBackup | restore.py:29-44 | when the directory holds only backups of one database, the default selection is a backup no other backup in the listing is newer than |
| Restore.RunRestore | restore.py:16-47 | the actions are, once each and in this order: list the directory; then, for a non-empty listing only, read a choice; then, only when an answer was read, exactly the actions of `restore_backup` on the path `Select` gives; an unlistable directory or empty listing ends after the listing, and a read that raises (end of input, interrupt) ends after the prompt; the run reports `Restored` exactly when the file exists and the tool exits with 0, `Failed` with the status for a non-zero exit, and a missing-file error otherwise |

## Left out

- Shell command construction and `subprocess.run` (backup.py lines 19-20, restore.py lines 22-23): the dump and restore tools are external processes and appear only as an exit status; the credentials on the command line and the quoting of the path are not modelled.
- The shell's `>` redirection creates or truncates the artifact before the dump tool starts, so a failed dump can still leave a file behind; the model tracks the actions and the report, not file contents.
- Loading `.env` and reading environment variables (backup.py lines 5-11, restore.py lines 6-13): the directory and database name are parameters. An unset `DB_NAME` is rendered by the f-string as the text `None`; the model takes the rendered text as given.
- `time.strftime` reads the local wall clock: the clock reading is an input `Time`. Local time can repeat an hour when daylight saving ends, so stamps are chronological only in terms of the local clock fields, which is what `Stamp.Before` compares.
- Stamp.Format: years outside 1000..9999, where `%Y` is not four digits, are excluded by `ValidTime`.
- `os.makedirs`, `os.listdir` and `os.path.exists` are inputs: a directory-creation answer (the empty directory name always fails), an optional listing (`None` when listing raises) and a set of existing paths.
- `print` and `input`: the printed messages and menu text are not modelled; the menu numbers are (`Digits.Show`). An `input` that raises (end of input, an interrupt) is modelled only as "no answer", which stops the run before any restore; the exception itself is not.
- Choice.ChoiceIndex: only ASCII digits are digits. Python's `str.isdigit` also accepts other Unicode digits, some of which `int` reads and some of which make it raise; neither is modelled.
- Choice.ChoiceIndex: Python 3.11 and later refuse to convert more than 4300 digits with `int` and raise; the model reads numbers of any length.
- File names that the operating system hands Python as surrogate escapes (undecodable bytes) are not Dafny characters and are not modelled.
- tests/test_backup.py exercises a `MySQLBackupManager` class with `create_backup` and `upload_to_s3`, which the scripts do not define; it anchors no property here.
- Connection checks before dump or restore, remote storage upload, listing and download, and post-restore verification do not exist in the scripts and are not modelled.

=== FILE: backup.dfy ===
/**
  backup.py: name the artifact after the database and the current second, make
  sure the backup directory exists, run the dump tool into the artifact, and
  report the outcome.

  The dump tool is an external process; its exit status is an input. The
  directory creation is an input too, except that an empty directory name always
  fails (`os.makedirs("")` raises).
*/
module Backup {
  import opened Options
  import opened LexOrder
  import opened Stamp
  import opened Paths

  const Infix: string := "_backup_"
  const Extension: string := ".sql"

  /** `f"{DB_NAME}_backup_{timestamp}.sql"` (backup.py line 16). */
  function BackupName(db: string, t: Time): (name: string)
    requires ValidTime(t)
    ensures |name| == |db| + |Infix| + 19 + |Extension|
  {
    db + Infix + Format(t) + Extension
  }

  /** Recovers the time from a backup file name of database `db`; `None` for any
      other name. */
  function ParseBackupName(db: string, name: string): (r: Option<Time>)
  {
    var k := |db| + |Infix|;
    if |name| == k + 19 + |Extension| && name[..k] == db + Infix && name[k + 19..] == Extension
    then Parse(name[k..k + 19])
    else None
  }

  lemma BackupNameParses(db: string, t: Time)
    requires ValidTime(t)
    ensures ParseBackupName(db, BackupName(db, t)) == Some(t)
  {
    var k := |db| + |Infix|;
    var name := BackupName(db, t);
    assert name == (db + Infix) + Format(t) + Extension;
    assert name[..k] == db + Infix;
    assert name[k..k + 19] == Format(t);
    assert name[k + 19..] == Extension;
    ParseFormat(Format(t), t);
  }

  lemma ParsedIsBackupName(db: string, name: string, t: Time)
    requires ParseBackupName(db, name) == Some(t)
    ensures ValidTime(t) && name == BackupName(db, t)
  {
    var k := |db| + |Infix|;
    var head, mid, tail := name[..k], name[k..k + 19], name[k + 19..];
    assert head == db + Infix && tail == Extension && Parse(mid) == Some(t);
    ParseFormat(mid, t);
    assert name[..k + 19] == head + mid;
    assert name == name[..k + 19] + tail;
  }

  /** A file name is the backup name of `db` at `t` exactly when it parses back
      to `t`. */
  lemma ParseBackupNameIff(db: string, name: string, t: Time)
    ensures ParseBackupName(db, name) == Some(t) <==> ValidTime(t) && name == BackupName(db, t)
  {
    if ValidTime(t) && name == BackupName(db, t) {
      BackupNameParses(db, t);
    }
    if ParseBackupName(db, name) == Some(t) {
      ParsedIsBackupName(db, name, t);
    }
  }

  /** For one database, comparing backup names as strings is comparing the times
      they were taken: the newest backup has the greatest name. */
  lemma NameOrder(db: string, a: Time, b: Time)
    requires ValidTime(a) && ValidTime(b)
    ensures Less(BackupName(db, a), BackupName(db, b)) <==> Before(a, b)
  {
    var p := db + Infix;
    assert BackupName(db, a) == p + (Format(a) + Extension);
    assert BackupName(db, b) == p + (Format(b) + Extension);
    PrefixCancel(p, Format(a) + Extension, Format(b) + Extension);
    FixedWidth(Format(a), Format(b), Extension, Extension);
    Irreflexive(Extension);
    FormatOrder(a, b);
  }

  /** Names are one-to-one on seconds: distinct times give distinct names, and
      two backups of the same database in the same second get the same name. */
  lemma NameInjective(db: string, a: Time, b: Time)
    requires ValidTime(a) && ValidTime(b)
    ensures BackupName(db, a) == BackupName(db, b) <==> a == b
  {
    ParseBackupNameIff(db, BackupName(db, a), a);
    ParseBackupNameIff(db, BackupName(db, a), b);
  }

  /** Where the dump is written (backup.py line 16). */
  function BackupPath(dir: string, db: string, t: Time): (path: string)
    requires ValidTime(t)
    ensures |BackupName(db, t)| <= |path|
    ensures path[|path| - |BackupName(db, t)|..] == BackupName(db, t)
  {
    Join(dir, BackupName(db, t))
  }

  lemma NoSepInStamp(t: Time)
    requires ValidTime(t)
    ensures Sep !in Format(t)
  {
    var s := Format(t);
    forall i | 0 <= i < 19
      ensures s[i] != Sep
    {
      if i < 4 {
        assert s[i] == s[0..4][i];
      } else if 4 < i < 7 {
        assert s[i] == s[5..7][i - 5];
      } else if 7 < i < 10 {
        assert s[i] == s[8..10][i - 8];
      } else if 10 < i < 13 {
        assert s[i] == s[11..13][i - 11];
      } else if 13 < i < 16 {
        assert s[i] == s[14..16][i - 14];
      } else if 16 < i {
        assert s[i] == s[17..19][i - 17];
      }
    }
  }

  /** When the database name holds no separator, the artifact is a file directly
      inside the backup directory, and its file name is the backup name. */
  lemma PathInsideDir(dir: string, db: string, t: Time)
    requires ValidTime(t) && Sep !in db
    ensures BaseName(BackupPath(dir, db, t)) == BackupName(db, t)
    ensures Parent(BackupPath(dir, db, t)) == DirPrefix(dir)
  {
    var name := BackupName(db, t);
    NoSepInStamp(t);
    forall i | 0 <= i < |name|
      ensures name[i] != Sep
    {
      var k := |db| + |Infix|;
      if i < |db| {
        assert name[i] == db[i];
      } else if i < k {
        assert name[i] == Infix[i - |db|];
      } else if i < k + 19 {
        assert name[i] == Format(t)[i - k];
      } else {
        assert name[i] == Extension[i - k - 19];
      }
    }
    JoinSplit(dir, name);
  }

  /** An absolute database name takes the artifact out of the backup directory:
      `os.path.join` drops the directory. */
  lemma AbsoluteNameLeavesDir(dir: string, db: string, t: Time)
    requires ValidTime(t) && IsAbsolute(db)
    ensures BackupPath(dir, db, t) == BackupName(db, t)
  {
  }

  datatype Action =
    | MakeDirs(dir: string)   // os.makedirs(BACKUP_DIR, exist_ok=True)
    | RunDump(path: string)   // the dump tool, its output redirected to `path`

  datatype Outcome =
    | DirectoryError                       // makedirs raised; the script stops there
    | Succeeded(path: string)              // "Backup successful" with the path
    | Failed(path: string, exitCode: int)  // CalledProcessError: "Backup failed"

  datatype Run = Run(actions: seq<Action>, outcome: Outcome)

  /** Whether `os.makedirs(dir, exist_ok=True)` returns: never for the empty
      name, otherwise as the filesystem answers (`dirOk`). */
  predicate DirectoryReady(dir: string, dirOk: bool)
  {
    |dir| > 0 && dirOk
  }

  /** The whole of backup.py for a given clock reading, directory answer and dump
      exit status. */
  function RunBackup(dir: string, db: string, t: Time, dirOk: bool, dumpExit: int): (r: Run)
    requires ValidTime(t)
    ensures |r.actions| > 0 && r.actions[0] == MakeDirs(dir)
    ensures |r.actions| == if DirectoryReady(dir, dirOk) then 2 else 1
    ensures DirectoryReady(dir, dirOk) ==> r.actions[1] == RunDump(BackupPath(dir, db, t))
    ensures forall p :: RunDump(p) in r.actions <==> DirectoryReady(dir, dirOk) && p == BackupPath(dir, db, t)
    ensures r.outcome.DirectoryError? <==> !DirectoryReady(dir, dirOk)
    ensures r.outcome.Succeeded? <==> DirectoryReady(dir, dirOk) && dumpExit == 0
    ensures !r.outcome.DirectoryError? ==> RunDump(r.outcome.path) in r.actions
    ensures r.outcome.Failed? ==> r.outcome.exitCode == dumpExit != 0
  {
    if !DirectoryReady(dir, dirOk) then
      Run([MakeDirs(dir)], DirectoryError)
    else
      var path := BackupPath(dir, db, t);
      Run([MakeDirs(dir), RunDump(path)],
          if dumpExit == 0 then Succeeded(path) else Failed(path, dumpExit))
  }
}

=== FILE: choice.dfy ===
/**
  Reading the operator's answer to "Enter the backup number to restore (or press
  Enter for latest)" (restore.py lines 39-44): strip it, and if it is a number
  within the menu take that entry, otherwise the first.
*/
module Choice {
  import opened Digits

  /** `str.isspace` for one character: the characters Python strips by default. */
  predicate IsSpace(c: char)
  {
    || '\U{0009}' <= c <= '\U{000D}'   // tab, line feed, vertical tab, form feed, return
    || '\U{001C}' <= c <= '\U{0020}'   // file/group/record/unit separators, space
    || c == '\U{0085}'                  // next line
    || c == '\U{00A0}'                  // no-break space
    || c == '\U{1680}'                  // ogham space mark
    || '\U{2000}' <= c <= '\U{200A}'   // en quad .. hair space
    || c == '\U{2028}' || c == '\U{2029}' // line and paragraph separators
    || c == '\U{202F}' || c == '\U{205F}' || c == '\U{3000}'
  }

  predicate AllSpace(s: string)
  {
    forall i :: 0 <= i < |s| ==> IsSpace(s[i])
  }

  /** `str.lstrip()`: drops the leading whitespace. */
  function StripLeft(s: string): (r: string)
    ensures |r| <= |s| && r == s[|s| - |r|..]
    ensures AllSpace(s[..|s| - |r|])
    ensures |r| > 0 ==> !IsSpace(r[0])
    decreases |s|
  {
    if |s| > 0 && IsSpace(s[0]) then StripLeft(s[1..]) else s
  }

  /** `str.rstrip()`: drops the trailing whitespace. */
  function StripRight(s: string): (r: string)
    ensures |r| <= |s| && r == s[..|r|]
    ensures AllSpace(s[|r|..])
    ensures |r| > 0 ==> !IsSpace(r[|r| - 1])
    decreases |s|
  {
    if |s| > 0 && IsSpace(s[|s| - 1]) then StripRight(s[..|s| - 1]) else s
  }

  /** `str.strip()`. */
  function Strip(s: string): (r: string)
    ensures |r| > 0 ==> !IsSpace(r[0]) && !IsSpace(r[|r| - 1])
  {
    StripRight(StripLeft(s))
  }

  lemma {:induction false} StripLeftSpaces(w: string, t: string)
    requires AllSpace(w) && (|t| == 0 || !IsSpace(t[0]))
    ensures StripLeft(w + t) == t
    decreases |w|
  {
    if |w| == 0 {
      assert w + t == t;
    } else {
      assert (w + t)[1..] == w[1..] + t;
      StripLeftSpaces(w[1..], t);
    }
  }

  lemma {:induction false} StripRightSpaces(t: string, w: string)
    requires AllSpace(w) && (|t| == 0 || !IsSpace(t[|t| - 1]))
    ensures StripRight(t + w) == t
    decreases |w|
  {
    if |w| == 0 {
      assert t + w == t;
    } else {
      assert (t + w)[..|t + w| - 1] == t + w[..|w| - 1];
      StripRightSpaces(t, w[..|w| - 1]);
    }
  }

  /** Stripping removes exactly the surrounding whitespace: whatever text without
      whitespace at its ends is typed, with any whitespace around it, `strip`
      gives that text back. */
  lemma StripPadded(w1: string, s: string, w2: string)
    requires AllSpace(w1) && AllSpace(w2)
    requires |s| == 0 || (!IsSpace(s[0]) && !IsSpace(s[|s| - 1]))
    ensures Strip(w1 + s + w2) == s
  {
    if |s| == 0 {
      assert w1 + s + w2 == (w1 + w2) + "";
      StripLeftSpaces(w1 + w2, "");
      assert StripRight("") == "";
    } else {
      assert w1 + s + w2 == w1 + (s + w2);
      StripLeftSpaces(w1, s + w2);
      StripRightSpaces(s, w2);
    }
  }

  /** Stripping twice is stripping once. */
  lemma StripIdempotent(s: string)
    ensures Strip(Strip(s)) == Strip(s)
  {
    var r := Strip(s);
    assert "" + r + "" == r;
    StripPadded("", r, "");
  }

  /** The stripped answer is a number naming one of the `count` menu entries. */
  predicate ValidChoice(choice: string, count: nat)
    ensures ValidChoice(choice, count) ==> count > 0 && IsDigits(Strip(choice))
  {
    var c := Strip(choice);
    IsDigits(c) && 1 <= Value(c) <= count
  }

  /** A number typed as `str` writes it, with any whitespace around it, is a
      usable answer exactly when it numbers a menu line. */
  lemma ShownNumberValid(w1: string, n: nat, w2: string, count: nat)
    requires AllSpace(w1) && AllSpace(w2)
    ensures ValidChoice(w1 + Show(n) + w2, count) <==> 1 <= n <= count
  {
    StripPadded(w1, Show(n), w2);
    ValueOfShow(n);
  }

  /** The position in the sorted listing that the answer selects: the entry it
      numbers, or the first entry for any other answer. */
  function ChoiceIndex(choice: string, count: nat): (k: nat)
    requires count > 0
    ensures k < count
    ensures ValidChoice(choice, count) ==> k + 1 == Value(Strip(choice))
    ensures !ValidChoice(choice, count) ==> k == 0
  {
    var c := Strip(choice);
    if IsDigits(c) && 1 <= Value(c) <= count then Value(c) - 1 else 0
  }

  /** Typing the number the menu shows next to entry `k` (as `str(k + 1)`,
      with any surrounding whitespace) selects entry `k`. */
  lemma ShownNumberSelects(w1: string, k: nat, w2: string, count: nat)
    requires k < count && AllSpace(w1) && AllSpace(w2)
    ensures ChoiceIndex(w1 + Show(k + 1) + w2, count) == k
  {
    var s := Show(k + 1);
    StripPadded(w1, s, w2);
    ValueOfShow(k + 1);
  }

  /** Pressing Enter, or typing only whitespace, selects the first entry. */
  lemma BlankSelectsFirst(w: string, count: nat)
    requires count > 0 && AllSpace(w)
    ensures ChoiceIndex(w, count) == 0
  {
    assert w + "" + "" == w;
    StripPadded(w, "", "");
  }

  /** A number outside 1..count (0 included) selects the first entry rather than
      being rejected. */
  lemma OutOfRangeSelectsFirst(w1: string, n: nat, w2: string, count: nat)
    requires count > 0 && AllSpace(w1) && AllSpace(w2) && (n == 0 || n > count)
    ensures ChoiceIndex(w1 + Show(n) + w2, count) == 0
  {
    StripPadded(w1, Show(n), w2);
    ValueOfShow(n);
  }
}

=== FILE: digits.dfy ===
/**
  Decimal digits: the zero-padded fields `strftime` writes, the plain numbers
  Python's `str(int)` writes, and the value `int()` reads back from a string of
  ASCII digits.
*/
module Digits {
  import opened LexOrder

  predicate IsDigit(c: char)
  {
    '0' <= c <= '9'
  }

  /** Python's `str.isdigit`, restricted to ASCII digits: non-empty and every
      character a digit. */
  predicate IsDigits(s: string)
  {
    |s| > 0 && AllDigits(s)
  }

  function Digit(d: nat): (c: char)
    requires d < 10
    ensures IsDigit(c) && DigitValue(c) == d
  {
    (48 + d) as char
  }

  function DigitValue(c: char): (d: nat)
    requires IsDigit(c)
    ensures d < 10
  {
    c as int - 48
  }

  lemma DigitOfValue(c: char)
    requires IsDigit(c)
    ensures Digit(DigitValue(c)) == c
  {
  }

  /** Every character is an ASCII digit (the empty string included). */
  predicate AllDigits(s: string)
  {
    forall i :: 0 <= i < |s| ==> IsDigit(s[i])
  }

  /** The number a string of decimal digits denotes, as `int()` reads it
      (leading zeros are allowed; the empty string reads as 0 here, which `int()`
      never sees because callers check `IsDigits` first). */
  function Value(s: string): (n: nat)
    requires AllDigits(s)
    ensures n < Pow10(|s|)
    decreases |s|
  {
    if |s| == 0 then 0 else 10 * Value(s[..|s| - 1]) + DigitValue(s[|s| - 1])
  }

  function Pow10(k: nat): (p: nat)
    ensures p >= 1
  {
    if k == 0 then 1 else 10 * Pow10(k - 1)
  }

  lemma AllDigitsAppend(a: string, b: string)
    requires AllDigits(a) && AllDigits(b)
    ensures AllDigits(a + b)
  {
    forall i | 0 <= i < |a + b|
      ensures IsDigit((a + b)[i])
    {
      if i >= |a| {
        assert (a + b)[i] == b[i - |a|];
      }
    }
  }

  /** Reading a concatenation: the left part is shifted by the width of the right. */
  lemma {:induction false} ValueAppend(a: string, b: string)
    requires AllDigits(a) && AllDigits(b)
    ensures AllDigits(a + b)
    ensures Value(a + b) == Value(a) * Pow10(|b|) + Value(b)
    decreases |b|
  {
    AllDigitsAppend(a, b);
    if |b| == 0 {
      assert a + b == a;
    } else {
      var b' := b[..|b| - 1];
      var last := b[|b| - 1];
      AllDigitsAppend(a, b');
      assert (a + b)[..|a + b| - 1] == a + b';
      assert (a + b)[|a + b| - 1] == last;
      ValueAppend(a, b');
      assert Value(a + b) == 10 * Value(a + b') + DigitValue(last);
      assert Value(b) == 10 * Value(b') + DigitValue(last);
      ShiftArithmetic(Value(a), Value(b'), Pow10(|b'|), DigitValue(last));
    }
  }

  lemma ShiftArithmetic(va: int, vb: int, p: int, d: int)
    ensures 10 * (va * p + vb) + d == va * (10 * p) + (10 * vb + d)
  {
  }

  /** Leading zeros do not change the number read: `int("007") == 7`. */
  lemma LeadingZero(s: string)
    requires AllDigits(s)
    ensures AllDigits("0" + s) && Value("0" + s) == Value(s)
  {
    ValueAppend("0", s);
    assert Value("0") == 0 by {
      assert "0"[..0] == [];
    }
  }

  /** `str(n)` for a natural number: its decimal digits, no leading zeros. */
  function Show(n: nat): (s: string)
    ensures IsDigits(s)
    ensures |s| > 1 ==> s[0] != '0'
    decreases n
  {
    if n < 10 then [Digit(n)] else Show(n / 10) + [Digit(n % 10)]
  }

  /** Reading back what `str` wrote gives the number again. */
  lemma {:induction false} ValueOfShow(n: nat)
    ensures Value(Show(n)) == n
    decreases n
  {
    if n >= 10 {
      var s := Show(n);
      assert s[..|s| - 1] == Show(n / 10);
      ValueOfShow(n / 10);
    }
  }

  /** A two-character, zero-padded field (`%m`, `%d`, `%H`, `%M`, `%S`). */
  function Pad2(n: nat): (s: string)
    requires n < 100
    ensures |s| == 2 && AllDigits(s)
  {
    [Digit(n / 10), Digit(n % 10)]
  }

  /** A four-character, zero-padded field (`%Y` for years 1000..9999). */
  function Pad4(n: nat): (s: string)
    requires n < 10000
    ensures |s| == 4 && AllDigits(s)
  {
    Pad2(n / 100) + Pad2(n % 100)
  }

  lemma Pad2RoundTrip(n: nat)
    requires n < 100
    ensures Value(Pad2(n)) == n
  {
    var s := Pad2(n);
    assert s[..1] == [Digit(n / 10)];
    assert s[..1][..0] == [];
    assert Value(s[..1]) == n / 10;
    assert n == 10 * (n / 10) + n % 10;
  }

  /** Every two-digit string is the padded rendering of the value it reads as. */
  lemma Pad2OfValue(s: string)
    requires |s| == 2 && AllDigits(s)
    ensures Value(s) < 100 && Pad2(Value(s)) == s
  {
    assert s[..1][..0] == [];
    assert s[..1][0] == s[0];
    assert Value(s[..1]) == DigitValue(s[0]);
    var v := Value(s);
    assert v == 10 * DigitValue(s[0]) + DigitValue(s[1]);
    DigitOfValue(s[0]);
    DigitOfValue(s[1]);
  }

  lemma Pad4RoundTrip(n: nat)
    requires n < 10000
    ensures Value(Pad4(n)) == n
  {
    ValueAppend(Pad2(n / 100), Pad2(n % 100));
    Pad2RoundTrip(n / 100);
    Pad2RoundTrip(n % 100);
  }

  /** Every four-digit string is the padded rendering of the value it reads as. */
  lemma Pad4OfValue(s: string)
    requires |s| == 4 && AllDigits(s)
    ensures Value(s) < 10000 && Pad4(Value(s)) == s
  {
    var hi, lo := s[..2], s[2..];
    assert s == hi + lo;
    ValueAppend(hi, lo);
    Pad2OfValue(hi);
    Pad2OfValue(lo);
    var v := Value(s);
    assert v == Value(hi) * 100 + Value(lo);
    assert v / 100 == Value(hi) && v % 100 == Value(lo);
  }

  /** Zero padding makes string order agree with numeric order. */
  lemma Pad2Order(n: nat, m: nat)
    requires n < 100 && m < 100
    ensures Less(Pad2(n), Pad2(m)) <==> n < m
    ensures Pad2(n) == Pad2(m) <==> n == m
  {
    var a, b := Pad2(n), Pad2(m);
    assert a == [a[0]] + [a[1]];
    assert b == [b[0]] + [b[1]];
    FixedWidth([a[0]], [b[0]], [a[1]], [b[1]]);
    FixedWidthEq([a[0]], [b[0]], [a[1]], [b[1]]);
    assert Less([a[0]], [b[0]]) <==> a[0] < b[0] by {
      assert [a[0]][1..] == [];
      assert [b[0]][1..] == [];
    }
    assert Less([a[1]], [b[1]]) <==> a[1] < b[1] by {
      assert [a[1]][1..] == [];
      assert [b[1]][1..] == [];
    }
    assert n == 10 * (n / 10) + n % 10;
    assert m == 10 * (m / 10) + m % 10;
  }

  lemma Pad4Order(n: nat, m: nat)
    requires n < 10000 && m < 10000
    ensures Less(Pad4(n), Pad4(m)) <==> n < m
    ensures Pad4(n) == Pad4(m) <==> n == m
  {
    FixedWidth(Pad2(n / 100), Pad2(m / 100), Pad2(n % 100), Pad2(m % 100));
    FixedWidthEq(Pad2(n / 100), Pad2(m / 100), Pad2(n % 100), Pad2(m % 100));
    Pad2Order(n / 100, m / 100);
    Pad2Order(n % 100, m % 100);
    assert n == 100 * (n / 100) + n % 100;
    assert m == 100 * (m / 100) + m % 100;
  }
}

=== FILE: lex.dfy ===
/**
  Lexicographic order on strings, comparing characters by code point.

  This is the order Python uses for `str` (and so the order `sorted` applies to a
  directory listing). Dafny's built-in `<` on sequences means "proper prefix",
  which is a different relation, so the order is defined here.
*/
module LexOrder {

  /** `a` sorts strictly before `b`: at the first position where they differ `a`
      has the smaller character, or `a` is a proper prefix of `b`. */
  predicate Less(a: string, b: string)
    decreases |a|
  {
    if |b| == 0 then false
    else if |a| == 0 then true
    else if a[0] != b[0] then a[0] < b[0]
    else Less(a[1..], b[1..])
  }

  /** `k` is the first position at which `a` and `b` part ways, and there `a` is
      the smaller one (either `a` has ended or its character is smaller). */
  ghost predicate FirstDifference(a: string, b: string, k: nat)
  {
    && k <= |a|
    && k < |b|
    && a[..k] == b[..k]
    && (k == |a| || a[k] < b[k])
  }

  /** The textbook definition of lexicographic order agrees with `Less`. */
  lemma {:induction false} LessIsFirstDifference(a: string, b: string)
    ensures Less(a, b) <==> exists k: nat :: FirstDifference(a, b, k)
    decreases |a|
  {
    if |b| == 0 {
    } else if |a| == 0 {
      assert FirstDifference(a, b, 0);
    } else if a[0] != b[0] {
      if a[0] < b[0] {
        assert FirstDifference(a, b, 0);
      } else {
        forall k: nat | FirstDifference(a, b, k)
          ensures false
        {
        }
      }
    } else {
      LessIsFirstDifference(a[1..], b[1..]);
      if Less(a[1..], b[1..]) {
        var k: nat :| FirstDifference(a[1..], b[1..], k);
        assert a[..k + 1] == [a[0]] + a[1..][..k];
        assert b[..k + 1] == [b[0]] + b[1..][..k];
        assert FirstDifference(a, b, k + 1);
      } else {
        forall k: nat | FirstDifference(a, b, k)
          ensures false
        {
          if k == 0 {
          } else {
            assert a[1..][..k - 1] == a[..k][1..];
            assert b[1..][..k - 1] == b[..k][1..];
            assert FirstDifference(a[1..], b[1..], k - 1);
          }
        }
      }
    }
  }

  lemma {:induction false} Irreflexive(a: string)
    ensures !Less(a, a)
    decreases |a|
  {
    if |a| > 0 {
      Irreflexive(a[1..]);
    }
  }

  lemma {:induction false} Asymmetric(a: string, b: string)
    requires Less(a, b)
    ensures !Less(b, a)
    decreases |a|
  {
    if |a| > 0 && a[0] == b[0] {
      Asymmetric(a[1..], b[1..]);
    }
  }

  lemma {:induction false} Transitive(a: string, b: string, c: string)
    requires Less(a, b) && Less(b, c)
    ensures Less(a, c)
    decreases |a|
  {
    if |a| > 0 && a[0] == b[0] && b[0] == c[0] {
      Transitive(a[1..], b[1..], c[1..]);
    }
  }

  /** Any two distinct strings are ordered one way or the other. */
  lemma {:induction false} Total(a: string, b: string)
    requires a != b
    ensures Less(a, b) || Less(b, a)
    decreases |a|
  {
    if |a| > 0 && |b| > 0 && a[0] == b[0] {
      assert a == [a[0]] + a[1..];
      assert b == [b[0]] + b[1..];
      Total(a[1..], b[1..]);
    }
  }

  /** "Not after" is transitive, which is what keeps a descending sort sorted. */
  lemma NotLessTransitive(a: string, b: string, c: string)
    requires !Less(a, b) && !Less(b, c)
    ensures !Less(a, c)
  {
    if Less(a, c) {
      if a == b {
      } else {
        Total(a, b);
        Transitive(b, a, c);
      }
    }
  }

  /** A common prefix does not affect the comparison. */
  lemma {:induction false} PrefixCancel(p: string, a: string, b: string)
    ensures Less(p + a, p + b) <==> Less(a, b)
    decreases |p|
  {
    if |p| == 0 {
      assert p + a == a;
      assert p + b == b;
    } else {
      assert (p + a)[1..] == p[1..] + a;
      assert (p + b)[1..] == p[1..] + b;
      PrefixCancel(p[1..], a, b);
    }
  }

  /** Comparing two concatenations whose first parts have the same width decides
      on the first parts, and falls through to the second parts only on a tie. */
  lemma {:induction false} FixedWidth(a: string, b: string, x: string, y: string)
    requires |a| == |b|
    ensures Less(a + x, b + y) <==> Less(a, b) || (a == b && Less(x, y))
    decreases |a|
  {
    if |a| == 0 {
      assert a + x == x;
      assert b + y == y;
    } else {
      assert (a + x)[0] == a[0];
      assert (b + y)[0] == b[0];
      assert (a + x)[1..] == a[1..] + x;
      assert (b + y)[1..] == b[1..] + y;
      FixedWidth(a[1..], b[1..], x, y);
      if a[0] == b[0] {
        assert a == [a[0]] + a[1..];
        assert b == [b[0]] + b[1..];
      }
    }
  }

  /** Two concatenations with equally wide first parts are equal exactly when
      both parts are. */
  lemma FixedWidthEq(a: string, b: string, x: string, y: string)
    requires |a| == |b|
    ensures a + x == b + y <==> a == b && x == y
  {
    if a + x == b + y {
      assert a == (a + x)[..|a|];
      assert b == (b + y)[..|b|];
      assert x == (a + x)[|a|..];
      assert y == (b + y)[|b|..];
    }
  }
}

=== FILE: options.dfy ===
/** The optional-value wrapper used for parsers that may reject their input. */
module Options {

  datatype Option<+T> = None | Some(value: T)
}

=== FILE: paths.dfy ===
/**
  POSIX path handling as Python's `os.path` does it: joining a directory and a
  file name, and splitting a path into its directory part and its last component.
*/
module Paths {

  const Sep: char := '/'

  predicate IsAbsolute(p: string)
  {
    |p| > 0 && p[0] == Sep
  }

  /** The directory as `join` uses it: a separator is added unless the directory
      is empty or already ends in one. */
  function DirPrefix(dir: string): (d: string)
    ensures d == dir || d == dir + [Sep]
    ensures |d| > 0 ==> d[|d| - 1] == Sep
    ensures |dir| <= |d| && d[..|dir|] == dir
  {
    if |dir| == 0 || dir[|dir| - 1] == Sep then dir else dir + [Sep]
  }

  /** `os.path.join(dir, name)`. An absolute `name` replaces `dir` altogether. */
  function Join(dir: string, name: string): (p: string)
    ensures |name| <= |p| && p[|p| - |name|..] == name
    ensures IsAbsolute(name) ==> p == name
    ensures !IsAbsolute(name) ==> |dir| <= |p| && p[..|dir|] == dir
  {
    if IsAbsolute(name) then name else DirPrefix(dir) + name
  }

  /** `os.path.basename(p)`: the longest suffix of `p` free of separators. */
  function BaseName(p: string): (b: string)
    ensures |b| <= |p| && b == p[|p| - |b|..]
    ensures Sep !in b
    ensures |b| < |p| ==> p[|p| - |b| - 1] == Sep
    decreases |p|
  {
    if |p| == 0 || p[|p| - 1] == Sep then "" else BaseName(p[..|p| - 1]) + [p[|p| - 1]]
  }

  /** Everything before the last component, trailing separator included. */
  function Parent(p: string): (d: string)
    ensures d + BaseName(p) == p
  {
    p[..|p| - |BaseName(p)|]
  }

  /** A relative file name without separators, joined under a directory, is the
      last component of the result and sits directly in that directory. */
  lemma JoinSplit(dir: string, name: string)
    requires |name| > 0 && Sep !in name
    ensures BaseName(Join(dir, name)) == name
    ensures Parent(Join(dir, name)) == DirPrefix(dir)
  {
    var p := Join(dir, name);
    var d := DirPrefix(dir);
    assert p == d + name;
    var b := BaseName(p);
    assert b == p[|d|..];
  }
}

=== FILE: restore.dfy ===
/**
  restore.py: list the backup directory newest first, let the operator pick an
  entry (any unusable answer means the newest), and restore it unless the file
  has gone missing.

  The directory listing, the file-existence answer and the restore tool's exit
  status are inputs; the operator's answer is the raw input line, or nothing
  when reading it raises.
*/
module Restore {
  import opened Options
  import opened LexOrder
  import opened Digits
  import opened Stamp
  import opened Paths
  import opened Sorting
  import opened Choice
  import Backup

  datatype Action =
    | ListDir(dir: string)          // os.listdir(BACKUP_DIR)
    | ReadChoice                    // input(...)
    | CheckExists(path: string)     // os.path.exists(backup_file)
    | RunRestoreTool(path: string)  // the restore tool, fed the file on its input

  datatype Report =
    | FileMissing                          // "Backup file does not exist!"
    | Restored(path: string)               // "Restore successful from: ..."
    | Failed(path: string, exitCode: int)  // CalledProcessError: "Restore failed!"

  datatype StepRun = StepRun(actions: seq<Action>, report: Report)

  /** `restore_backup(path)` (restore.py lines 16-26), with `present` the answer
      of `os.path.exists` and `toolExit` the exit status the tool would return. */
  function RestoreBackup(path: string, present: bool, toolExit: int): (r: StepRun)
    ensures |r.actions| > 0 && r.actions[0] == CheckExists(path)
    ensures |r.actions| == if present then 2 else 1
    ensures present ==> r.actions[1] == RunRestoreTool(path)
    ensures forall p :: RunRestoreTool(p) in r.actions <==> present && p == path
    ensures r.report.FileMissing? <==> !present
    ensures r.report.Restored? <==> present && toolExit == 0
    ensures !r.report.FileMissing? ==> r.report.path == path
    ensures r.report.Failed? ==> r.report.exitCode == toolExit != 0
  {
    if !present then
      StepRun([CheckExists(path)], FileMissing)
    else
      StepRun([CheckExists(path), RunRestoreTool(path)],
              if toolExit == 0 then Restored(path) else Failed(path, toolExit))
  }

  /** The entry restore.py settles on (lines 29-44): `None` for an empty listing,
      otherwise the chosen entry of the listing sorted newest first. */
  function Chosen(entries: seq<string>, choice: string): (r: Option<string>)
    ensures r.None? <==> |entries| == 0
    ensures r.Some? ==> r.value in entries
    ensures r.Some? && ValidChoice(choice, |entries|) ==>
              r.value == SortDesc(entries)[Value(Strip(choice)) - 1]
    ensures r.Some? && !ValidChoice(choice, |entries|) ==> r.value == SortDesc(entries)[0]
  {
    var files := SortDesc(entries);
    if |files| == 0 then None
    else
      var k := ChoiceIndex(choice, |entries|);
      InSorted(entries, k);
      Some(files[k])
  }

  lemma InSorted(entries: seq<string>, k: nat)
    requires k < |entries|
    ensures SortDesc(entries)[k] in entries
  {
    assert SortDesc(entries)[k] in multiset(SortDesc(entries));
  }

  /** The path handed to `restore_backup`: the backup directory joined with the
      chosen entry, so never a name from outside the listing. */
  function Select(dir: string, entries: seq<string>, choice: string): (r: Option<string>)
    ensures r.None? <==> |entries| == 0
    ensures r.Some? ==> exists f :: f in entries && r.value == Join(dir, f)
  {
    match Chosen(entries, choice)
    case None => None
    case Some(f) => Some(Join(dir, f))
  }

  /** Without a usable number the selection is a greatest entry of the listing. */
  lemma DefaultSelectsGreatest(dir: string, entries: seq<string>, choice: string)
    requires |entries| > 0 && !ValidChoice(choice, |entries|)
    ensures Select(dir, entries, choice) == Some(Join(dir, SortDesc(entries)[0]))
    ensures SortDesc(entries)[0] in entries
    ensures forall x :: x in entries ==> !Less(SortDesc(entries)[0], x)
  {
    var files := SortDesc(entries);
    assert files[0] in multiset(entries);
    FirstIsGreatest(files);
    forall x | x in entries
      ensures x in files
    {
      assert x in multiset(files);
    }
  }

  /** Typing the number printed next to menu line `k` (restore.py line 36
      prints `k + 1`) selects that line's entry. */
  lemma ShownNumberSelectsLine(dir: string, entries: seq<string>, w1: string, k: nat, w2: string)
    requires k < |entries| && AllSpace(w1) && AllSpace(w2)
    ensures Select(dir, entries, w1 + Show(k + 1) + w2) == Some(Join(dir, SortDesc(entries)[k]))
  {
    ShownNumberSelects(w1, k, w2, |entries|);
  }

  /** The listing consists of backups of database `db`, entry `i` taken at `ts[i]`. */
  predicate BackupsOf(db: string, entries: seq<string>, ts: seq<Time>)
  {
    && |entries| == |ts|
    && forall i :: 0 <= i < |ts| ==> ValidTime(ts[i]) && entries[i] == Backup.BackupName(db, ts[i])
  }

  /** When the directory holds only backups of one database, the default choice
      restores the most recent one, entry `j`: no backup in the listing was taken
      later. */
  lemma DefaultIsNewestBackup(dir: string, db: string, entries: seq<string>, ts: seq<Time>, choice: string)
    returns (j: nat)
    requires BackupsOf(db, entries, ts) && |entries| > 0 && !ValidChoice(choice, |entries|)
    ensures j < |ts| && Select(dir, entries, choice) == Some(Join(dir, entries[j]))
    ensures forall i :: 0 <= i < |ts| ==> !Before(ts[j], ts[i])
  {
    DefaultSelectsGreatest(dir, entries, choice);
    var top := SortDesc(entries)[0];
    j :| 0 <= j < |entries| && entries[j] == top;
    GreatestNameIsNewest(db, entries, ts, j);
  }

  /** Among backups of one database, an entry whose name is not below any other
      was taken no earlier than any other. */
  lemma GreatestNameIsNewest(db: string, entries: seq<string>, ts: seq<Time>, j: nat)
    requires BackupsOf(db, entries, ts) && j < |entries|
    requires forall x :: x in entries ==> !Less(entries[j], x)
    ensures forall i :: 0 <= i < |ts| ==> !Before(ts[j], ts[i])
  {
    forall i | 0 <= i < |ts|
      ensures !Before(ts[j], ts[i])
    {
      assert entries[i] in entries;
      Backup.NameOrder(db, ts[j], ts[i]);
    }
  }

  datatype Outcome =
    | ListingError                                // os.listdir raised: no such directory
    | NoBackups                                   // "No backup files found!"
    | InputAborted                                // input() raised (end of input, interrupt)
    | Attempted(selected: string, report: Report) // restore_backup(selected) ran

  datatype ScriptRun = ScriptRun(actions: seq<Action>, outcome: Outcome)

  /** The whole of restore.py. `listing` is `None` when the directory cannot be
      listed; `choice` is `None` when reading the answer raises instead of
      returning a line (end of input, or an interrupt), which nothing catches;
      `present` is the set of paths `os.path.exists` accepts. */
  function RunRestore(dir: string, listing: Option<seq<string>>, choice: Option<string>,
                      present: set<string>, toolExit: int): (r: ScriptRun)
    ensures |r.actions| > 0 && r.actions[0] == ListDir(dir)
    ensures r.outcome.Attempted? ==>
              r.actions == [ListDir(dir), ReadChoice]
                           + RestoreBackup(r.outcome.selected, r.outcome.selected in present, toolExit).actions
    ensures !r.outcome.Attempted? ==>
              r.actions == [ListDir(dir)] + (if r.outcome.InputAborted? then [ReadChoice] else [])
    ensures r.outcome.ListingError? <==> listing.None?
    ensures r.outcome.NoBackups? <==> listing == Some([])
    ensures ReadChoice in r.actions <==> listing.Some? && |listing.value| > 0
    ensures r.outcome.InputAborted? <==> listing.Some? && |listing.value| > 0 && choice.None?
    ensures r.outcome.Attempted? <==> listing.Some? && |listing.value| > 0 && choice.Some?
    ensures forall p :: RunRestoreTool(p) in r.actions ==>
              r.outcome.Attempted? && p == r.outcome.selected && p in present
    ensures r.outcome.Attempted? ==>
              listing.Some? && choice.Some?
              && Select(dir, listing.value, choice.value) == Some(r.outcome.selected)
    ensures r.outcome.Attempted? ==> CheckExists(r.outcome.selected) in r.actions
    ensures r.outcome.Attempted? && r.outcome.selected in present ==>
              RunRestoreTool(r.outcome.selected) in r.actions
    ensures r.outcome.Attempted? ==>
              (r.outcome.report.Restored? <==> r.outcome.selected in present && toolExit == 0)
    ensures r.outcome.Attempted? && r.outcome.report.Restored? ==>
              r.outcome.report.path == r.outcome.selected
    ensures r.outcome.Attempted? && r.outcome.selected in present && toolExit != 0 ==>
              r.outcome.report == Failed(r.outcome.selected, toolExit)
    ensures r.outcome.Attempted? && r.outcome.selected !in present ==>
              r.outcome.report == FileMissing
  {
    match listing
    case None => ScriptRun([ListDir(dir)], ListingError)
    case Some(entries) =>
      if |entries| == 0 then ScriptRun([ListDir(dir)], NoBackups)
      else
        match choice
        case None => ScriptRun([ListDir(dir), ReadChoice], InputAborted)
        case Some(answer) =>
          var path := Select(dir, entries, answer).value;
          var step := RestoreBackup(path, path in present, toolExit);
          assert step.actions[0] == CheckExists(path);
          ScriptRun([ListDir(dir), ReadChoice] + step.actions, Attempted(path, step.report))
  }
}

=== FILE: sorting.dfy ===
/**
  `sorted(entries, reverse=True)` on strings (restore.py line 29): the entries in
  non-increasing lexicographic order.
*/
module Sorting {
  import opened LexOrder

  /** No entry is followed by a greater one. */
  predicate SortedDesc(s: seq<string>)
  {
    forall i, j :: 0 <= i < j < |s| ==> !Less(s[i], s[j])
  }

  /** The first entry of a descending sequence is a greatest entry. */
  lemma FirstIsGreatest(s: seq<string>)
    requires SortedDesc(s) && |s| > 0
    ensures forall x :: x in s ==> !Less(s[0], x)
  {
    forall x | x in s
      ensures !Less(s[0], x)
    {
      var j :| 0 <= j < |s| && s[j] == x;
      if j == 0 {
        Irreflexive(x);
      }
    }
  }

  lemma InsertBelowHead(x: string, s: seq<string>, rest: seq<string>)
    requires SortedDesc(s) && |s| > 0 && Less(x, s[0])
    requires SortedDesc(rest) && multiset(rest) == multiset(s[1..]) + multiset{x}
    ensures SortedDesc([s[0]] + rest)
  {
    var r := [s[0]] + rest;
    forall j | 1 <= j < |r|
      ensures !Less(s[0], r[j])
    {
      var e := r[j];
      assert e == rest[j - 1];
      assert e in multiset(rest);
      if e == x {
        Asymmetric(x, s[0]);
      } else {
        assert e in multiset(s[1..]);
        var k :| 0 <= k < |s[1..]| && s[1..][k] == e;
        assert s[k + 1] == e;
      }
    }
  }

  lemma InsertAtHead(x: string, s: seq<string>)
    requires SortedDesc(s) && (|s| == 0 || !Less(x, s[0]))
    ensures SortedDesc([x] + s)
  {
    var r := [x] + s;
    forall j | 1 <= j < |r|
      ensures !Less(x, r[j])
    {
      if j > 1 {
        NotLessTransitive(x, s[0], s[j - 1]);
      }
    }
  }

  /** Inserts `x` into a descending sequence, before the first entry it is not
      below. */
  function Insert(x: string, s: seq<string>): (r: seq<string>)
    requires SortedDesc(s)
    ensures |r| == |s| + 1
    ensures multiset(r) == multiset(s) + multiset{x}
    ensures SortedDesc(r)
    decreases |s|
  {
    if |s| == 0 || !Less(x, s[0]) then
      InsertAtHead(x, s);
      [x] + s
    else
      var rest := Insert(x, s[1..]);
      assert s == [s[0]] + s[1..];
      InsertBelowHead(x, s, rest);
      [s[0]] + rest
  }

  /** The listing in descending order: a permutation of it that is sorted. */
  function SortDesc(xs: seq<string>): (r: seq<string>)
    ensures |r| == |xs|
    ensures multiset(r) == multiset(xs)
    ensures SortedDesc(r)
    decreases |xs|
  {
    if |xs| == 0 then []
    else
      assert xs == [xs[0]] + xs[1..];
      Insert(xs[0], SortDesc(xs[1..]))
  }

  /** Two descending arrangements of the same entries start with the same one. */
  lemma SortedHeadsAgree(a: seq<string>, b: seq<string>)
    requires SortedDesc(a) && SortedDesc(b) && multiset(a) == multiset(b) && |a| > 0
    ensures |b| > 0 && a[0] == b[0]
  {
    assert a[0] in multiset(b);
    assert b[0] in multiset(a);
    FirstIsGreatest(a);
    FirstIsGreatest(b);
    if a[0] != b[0] {
      Total(a[0], b[0]);
    }
  }

  lemma TailMultiset(a: seq<string>)
    requires |a| > 0
    ensures multiset(a[1..]) == multiset(a) - multiset{a[0]}
  {
    assert a == [a[0]] + a[1..];
  }

  /** There is only one descending arrangement of a collection of strings, so
      `SortDesc` is the arrangement `sorted(..., reverse=True)` produces. */
  lemma {:induction false} SortedUnique(a: seq<string>, b: seq<string>)
    requires SortedDesc(a) && SortedDesc(b) && multiset(a) == multiset(b)
    ensures a == b
    decreases |a|
  {
    if |a| == 0 {
      assert multiset(b) == multiset{};
    } else {
      SortedHeadsAgree(a, b);
      TailMultiset(a);
      TailMultiset(b);
      SortedUnique(a[1..], b[1..]);
      assert a == [a[0]] + a[1..];
      assert b == [b[0]] + b[1..];
    }
  }
}

=== FILE: stamp.dfy ===
/**
  The `%Y-%m-%d_%H-%M-%S` timestamp that names a backup (backup.py line 15).

  The wall clock is an input here: a `Time` is the broken-down local time that
  `time.strftime` formats.
*/
module Stamp {
  import opened Options
  import opened LexOrder
  import opened Digits

  datatype Time = Time(year: nat, month: nat, day: nat, hour: nat, minute: nat, second: nat)

  /** The ranges the clock delivers. `%S` may read 60 or 61 on a leap second.
      Years are limited to four digits, where `%Y` is fixed width. */
  predicate ValidTime(t: Time)
  {
    && 1000 <= t.year <= 9999
    && 1 <= t.month <= 12
    && 1 <= t.day <= 31
    && t.hour <= 23
    && t.minute <= 59
    && t.second <= 61
  }

  /** Chronological order: `a` is strictly earlier than `b`. */
  predicate Before(a: Time, b: Time)
  {
    || a.year < b.year
    || (a.year == b.year && a.month < b.month)
    || (a.year == b.year && a.month == b.month && a.day < b.day)
    || (a.year == b.year && a.month == b.month && a.day == b.day && a.hour < b.hour)
    || (a.year == b.year && a.month == b.month && a.day == b.day && a.hour == b.hour
        && a.minute < b.minute)
    || (a.year == b.year && a.month == b.month && a.day == b.day && a.hour == b.hour
        && a.minute == b.minute && a.second < b.second)
  }

  /** A separator character followed by a two-digit field. */
  function Field(sep: char, n: nat): (s: string)
    requires n < 100
  {
    [sep] + Pad2(n)
  }

  /** `time.strftime("%Y-%m-%d_%H-%M-%S")`. */
  function Format(t: Time): (s: string)
    requires ValidTime(t)
    ensures IsStampShape(s)
  {
    var s := Pad4(t.year) + Field('-', t.month) + Field('-', t.day)
             + Field('_', t.hour) + Field('-', t.minute) + Field('-', t.second);
    assert s[0..4] == Pad4(t.year);
    assert s[5..7] == Pad2(t.month);
    assert s[8..10] == Pad2(t.day);
    assert s[11..13] == Pad2(t.hour);
    assert s[14..16] == Pad2(t.minute);
    assert s[17..19] == Pad2(t.second);
    s
  }

  /** The fixed layout of a stamp: 19 characters, `-` inside the date and inside
      the time, `_` between them, digits everywhere else. */
  predicate IsStampShape(s: string)
  {
    && |s| == 19
    && AllDigits(s[0..4]) && s[4] == '-'
    && AllDigits(s[5..7]) && s[7] == '-'
    && AllDigits(s[8..10]) && s[10] == '_'
    && AllDigits(s[11..13]) && s[13] == '-'
    && AllDigits(s[14..16]) && s[16] == '-'
    && AllDigits(s[17..19])
  }

  /** Reads a stamp back into the time it denotes; rejects anything that is not
      the rendering of a valid time. */
  function Parse(s: string): (r: Option<Time>)
    ensures r.Some? ==> ValidTime(r.value)
  {
    if !IsStampShape(s) then None
    else
      var t := Time(Value(s[0..4]), Value(s[5..7]), Value(s[8..10]),
                    Value(s[11..13]), Value(s[14..16]), Value(s[17..19]));
      if ValidTime(t) then Some(t) else None
  }

  /** Where each field of the time sits in its stamp. */
  lemma FormatFields(t: Time)
    requires ValidTime(t)
    ensures Format(t)[0..4] == Pad4(t.year)
    ensures Format(t)[5..7] == Pad2(t.month)
    ensures Format(t)[8..10] == Pad2(t.day)
    ensures Format(t)[11..13] == Pad2(t.hour)
    ensures Format(t)[14..16] == Pad2(t.minute)
    ensures Format(t)[17..19] == Pad2(t.second)
  {
    var s := Pad4(t.year) + Field('-', t.month) + Field('-', t.day)
             + Field('_', t.hour) + Field('-', t.minute) + Field('-', t.second);
    assert Format(t) == s;
    assert s[0..4] == Pad4(t.year);
    assert s[5..7] == Pad2(t.month);
    assert s[8..10] == Pad2(t.day);
    assert s[11..13] == Pad2(t.hour);
    assert s[14..16] == Pad2(t.minute);
    assert s[17..19] == Pad2(t.second);
  }

  /** Formatting and parsing are inverse: a string parses to `t` exactly when it
      is the stamp of the valid time `t`. */
  lemma ParseFormat(s: string, t: Time)
    ensures Parse(s) == Some(t) <==> ValidTime(t) && Format(t) == s
  {
    if ValidTime(t) && Format(t) == s {
      FormatFields(t);
      Pad4RoundTrip(t.year);
      Pad2RoundTrip(t.month);
      Pad2RoundTrip(t.day);
      Pad2RoundTrip(t.hour);
      Pad2RoundTrip(t.minute);
      Pad2RoundTrip(t.second);
    }
    if Parse(s) == Some(t) {
      Pad4OfValue(s[0..4]);
      Pad2OfValue(s[5..7]);
      Pad2OfValue(s[8..10]);
      Pad2OfValue(s[11..13]);
      Pad2OfValue(s[14..16]);
      Pad2OfValue(s[17..19]);
      var f := Format(t);
      FormatFields(t);
      assert f[0..4] == s[0..4];
      assert f[5..7] == s[5..7];
      assert f[8..10] == s[8..10];
      assert f[11..13] == s[11..13];
      assert f[14..16] == s[14..16];
      assert f[17..19] == s[17..19];
      forall i | 0 <= i < 19
        ensures f[i] == s[i]
      {
        if i < 4 {
          assert f[i] == f[0..4][i];
          assert s[i] == s[0..4][i];
        } else if 4 < i < 7 {
          assert f[i] == f[5..7][i - 5];
          assert s[i] == s[5..7][i - 5];
        } else if 7 < i < 10 {
          assert f[i] == f[8..10][i - 8];
          assert s[i] == s[8..10][i - 8];
        } else if 10 < i < 13 {
          assert f[i] == f[11..13][i - 11];
          assert s[i] == s[11..13][i - 11];
        } else if 13 < i < 16 {
          assert f[i] == f[14..16][i - 14];
          assert s[i] == s[14..16][i - 14];
        } else if 16 < i {
          assert f[i] == f[17..19][i - 17];
          assert s[i] == s[17..19][i - 17];
        }
      }
      assert f == s;
    }
  }

  /** Distinct times have distinct stamps; two runs in the same second share one. */
  lemma FormatInjective(a: Time, b: Time)
    requires ValidTime(a) && ValidTime(b)
    ensures Format(a) == Format(b) <==> a == b
  {
    ParseFormat(Format(a), a);
    ParseFormat(Format(a), b);
  }

  /** Appending a field to two equally wide prefixes: the prefixes decide, and
      the fields break a tie. */
  lemma FieldStep(p: string, q: string, c: char, n: nat, m: nat)
    requires |p| == |q| && n < 100 && m < 100
    ensures Less(p + Field(c, n), q + Field(c, m)) <==> Less(p, q) || (p == q && n < m)
    ensures p + Field(c, n) == q + Field(c, m) <==> p == q && n == m
  {
    FixedWidth(p, q, Field(c, n), Field(c, m));
    FixedWidthEq(p, q, Field(c, n), Field(c, m));
    PrefixCancel([c], Pad2(n), Pad2(m));
    FixedWidthEq([c], [c], Pad2(n), Pad2(m));
    Pad2Order(n, m);
  }

  /** The stamp is built so that string order is chronological order. */
  lemma FormatOrder(a: Time, b: Time)
    requires ValidTime(a) && ValidTime(b)
    ensures Less(Format(a), Format(b)) <==> Before(a, b)
  {
    var a1, b1 := Pad4(a.year), Pad4(b.year);
    var a2, b2 := a1 + Field('-', a.month), b1 + Field('-', b.month);
    var a3, b3 := a2 + Field('-', a.day), b2 + Field('-', b.day);
    var a4, b4 := a3 + Field('_', a.hour), b3 + Field('_', b.hour);
    var a5, b5 := a4 + Field('-', a.minute), b4 + Field('-', b.minute);
    assert Format(a) == a5 + Field('-', a.second);
    assert Format(b) == b5 + Field('-', b.second);
    Pad4Order(a.year, b.year);
    FieldStep(a1, b1, '-', a.month, b.month);
    FieldStep(a2, b2, '-', a.day, b.day);
    FieldStep(a3, b3, '_', a.hour, b.hour);
    FieldStep(a4, b4, '-', a.minute, b.minute);
    FieldStep(a5, b5, '-', a.second, b.second);
  }
}
